=== FILE: README.md ===
# Identity core of study-quest-backend, in Dafny

This project models the authentication and token-lifecycle core of a NestJS
user-identity service. The core issues, verifies, rotates and revokes signed
bearer tokens. It also decides, per endpoint, whether a request must carry a
valid token. The modelled parts are:

- the refresh-token slot store (`RefreshTokensIdsStorage`): one cache key
  `user-<id>` per user, holding the rotation id that user may redeem next;
- the credential state machine (`AuthenticationService`): sign-in, sign-up,
  password change, refresh-token rotation and token issuance;
- federated sign-in (`GoogleAuthenticationService.authenticate`);
- the bearer-token gate (`AccessTokenGuard`), with header parsing written out
  over JavaScript's `split(' ')`;
- guard composition (`AuthenticationGuard`): the declared authentication
  types run in order, the first allow wins, and otherwise the last thrown
  error is thrown;
- the three user mappers, which project fields between the database row, the
  domain user, the creation input and the response.

Everything is pure functions over immutable values. The user table and the
refresh-slot cache are Dafny maps that each operation takes and returns.
Exceptions are `Result` failures, with one error variant per exception the
code raises or lets through. The request context the guard writes into is an
explicit `Request` value.

The collaborators are values passed in as parameters:

- The hashing provider is a pair of functions, `hash` and `compare`. Either
  one may reject.
- The signer is a pair `sign` (may reject) and `verify` (partial).
- The OAuth id-token verifier is a partial function from the token to
  `{sub, name, email}`.
- `randomUUID`, new row ids and the clock are parameters: `refreshTokenId`,
  `newUserId` and `now`.

Laws about the collaborators are ghost predicates used only as lemma
hypotheses, never proved. There are three: `VerifyInvertsSign` (a signed
token verifies to its payload), `CompactTokens` (a signed token is non-empty
and has no space) and `CompareAcceptsOwnDigest` (a password matches its own
digest).

Files: `common.dfy` (Option, Result, errors, messages), `users.dfy` (records),
`strings.dfy` (split/join), `user_store.dfy`, `refresh_tokens_ids_storage.dfy`,
`jwt.dfy`, `authentication_service.dfy`, `google_authentication_service.dfy`,
`access_token_guard.dfy`, `authentication_guard.dfy`, the three mapper files,
and `authentication_flows.dfy` (properties that span several operations).

### Behaviour of the code worth knowing

- Nothing in the code calls `insert`; in particular `generateTokens` does
  not. A refresh token just issued is therefore refused with "Access
  denied" unless its user's slot already held that id
  (`IssuedRefreshTokenNotRecorded`). `InsertedRefreshTokenRedeemed` shows
  that the missing `insert` is the only thing in the way.
- `refreshTokens` and `authenticate` return `generateTokens(...)` from inside
  their try-blocks without `await`. A signing rejection therefore escapes
  the catch unchanged (`SigningFailed`). Every other failure of
  `authenticate` is a bare Unauthorized.
- `changePassword` reads the caller's row before it compares the two
  passwords. A missing row is dereferenced only after that comparison, and
  then raises a TypeError (`NullUser`).
- The claim holding the user id is `sub`. `ActiveUserData` declares `id`,
  but the code reads `activeUser.sub`.
- `signUp` returns both tokens. The service unit test
  (`src/iam/authentication/authentication.service.spec.ts`) and the
  end-to-end test (`src/iam/test/authentication.e2e-spec.ts`) expect only
  `accessToken`; the controller unit test expects the same, but only
  because its mocked service returns that.
- A refresh token whose payload has no `refreshTokenId` (an access token,
  say) reaches `validate` as `undefined`, which differs from every stored
  value. It is refused with "Access denied" (`AccessTokenNotRefreshable`).
- The Prisma domain mapper copies the federated id in neither direction,
  although the domain user declares one. Row to domain to row is therefore
  the identity only on rows without one (`PrismaUserDomainMapper.RowRoundTrip`).
- Both kinds of token are signed with the same secret, issuer and audience,
  and the access guard does not check which kind it got. An issued refresh
  token therefore passes the access guard (`IssuedRefreshTokenPassesGuard`).

## Model

| member | source | states |
|---|---|---|
| RefreshTokensIdsStorage.Key | src/iam/authentication/refresh-tokens-ids.storage.ts:27-29 | the slot key is the prefix `user-` followed by exactly the user id |
| RefreshTokensIdsStorage.KeyInjective | src/iam/authentication/refresh-tokens-ids.storage.ts:27-29 | two users share a slot key only if they are the same user |
| RefreshTokensIdsStorage.Insert | src/iam/authentication/refresh-tokens-ids.storage.ts:9-11 | after insert the user's slot holds the inserted id |
| RefreshTokensIdsStorage.Validate | src/iam/authentication/refresh-tokens-ids.storage.ts:13-21 | succeeds exactly when the slot holds the given id, then always with true; otherwise, an empty slot included, fails with InvalidatedRefreshTokenError |
| RefreshTokensIdsStorage.Invalidate | src/iam/authentication/refresh-tokens-ids.storage.ts:23-25 | after invalidate the user's slot is empty |
| RefreshTokensIdsStorage.InsertThenValidate | src/iam/authentication/refresh-tokens-ids.storage.ts:9-21 | an id just inserted validates to true |
| RefreshTokensIdsStorage.InvalidateThenValidate | src/iam/authentication/refresh-tokens-ids.storage.ts:13-25 | after invalidate every validate for that user throws InvalidatedRefreshTokenError |
| RefreshTokensIdsStorage.InsertOverwrites | src/iam/authentication/refresh-tokens-ids.storage.ts:9-21 | inserting b after a supersedes a: a throws, b validates |
| RefreshTokensIdsStorage.OtherSlotsUnchanged | src/iam/authentication/refresh-tokens-ids.storage.ts:9-29 | insert and invalidate on one user leave every other user's slot and validate answers unchanged |
| UserStore.FindOne | src/users/repositories/prisma/users.repository.ts:32-36 | a row comes back exactly when the id is in the table, and it is that row |
| UserStore.FindByEmail | src/users/repositories/prisma/users.repository.ts:38-46 | on a consistent table, a row comes back exactly when some row has that email, and it is a stored row with that email |
| UserStore.FindByGoogleId | src/users/repositories/prisma/users.repository.ts:38-46 | on a consistent table, a row comes back exactly when some row has that federated id, and it is that stored row |
| UserStore.Create | src/users/repositories/prisma/users.repository.ts:17-20 | refused with a unique-key violation exactly when the id, email or federated id is taken; otherwise adds one row with the given fields and the table defaults and keeps the indexes consistent |
| UserStore.UpdatePassword | src/users/repositories/prisma/users.repository.ts:21-27 | refused exactly when the row is missing; otherwise changes that row's password only, leaves the indexes and column defaults as they were, and keeps the table consistent |
| AuthenticationService.SignToken | src/iam/authentication/authentication.service.ts:162-172 | fails only as a signing rejection; a produced token is exactly what the signer returns for `{sub: userId, ...payload}` at the given lifetime, and it verifies to those claims |
| AuthenticationService.GenerateTokens | src/iam/authentication/authentication.service.ts:146-160 | succeeds exactly when both signings succeed; the access token is the signer's output for the user's id, email and role at the access lifetime, the refresh token for the user's id and the fresh rotation id at the refresh lifetime; both verify to those claims; no slot is written |
| AuthenticationService.SignIn | src/iam/authentication/authentication.service.ts:36-60 | "User not found" exactly when no row has the email; "Invalid credentials" exactly when compare answers false; a compare rejection is passed through unchanged; when compare answers true, the answer is token issuance for that row |
| AuthenticationService.SignUp | src/iam/authentication/authentication.service.ts:62-79 | a hashing rejection changes nothing; after hashing, a unique-key violation is raised, with no change, exactly when the id or email is taken, and otherwise one new row is added with the given name and email and the digest as its password, the table's default role and login-attempt count, no federated id and both timestamps `now`, and tokens are issued for it; the column defaults are kept and the table stays consistent |
| AuthenticationService.ChangePassword | src/iam/authentication/authentication.service.ts:81-111 | equal passwords give BadRequest with the table untouched; otherwise a missing caller row raises the TypeError of reading a field of `null`, and a compare or hash rejection is passed through, each with the table untouched; "Invalid credentials" exactly when compare answers false; when compare answers true and hashing succeeds, the caller's password becomes the digest of the new one, nothing else changes, and tokens are issued for the caller; nothing but the rows can change |
| AuthenticationService.ValidateClaim | src/iam/authentication/authentication.service.ts:125-128 | a decoded rotation id validates exactly when it is present and equals the stored one; a missing claim never validates |
| AuthenticationService.RefreshTokens | src/iam/authentication/authentication.service.ts:113-144 | bare Unauthorized exactly when verification fails or the user is missing; "Access denied" exactly when the slot does not hold the token's rotation id; on success the slot is emptied and new tokens issued; no other error than these and a signing rejection |
| GoogleAuthenticationService.Authenticate | src/iam/authentication/social/google-authentication.service.ts:19-45 | a rejected id token gives Unauthorized and no change; a known federated id gets tokens with no change; an unknown one creates exactly one password-less row from the payload, with tokens for it, exactly when its id and email are free, and is otherwise refused as Unauthorized with no change; the column defaults are kept; the only errors are Unauthorized and a signing rejection |
| GoogleAuthenticationService.VerifierConsultedOnTokenOnly | src/iam/authentication/social/google-authentication.service.ts:21-23 | the outcome depends on the verifier only through its answer for the given token |
| GoogleAuthenticationService.ReturningUserNotRecreated | src/iam/authentication/social/google-authentication.service.ts:27-32 | a user whose row has the payload's federated id gets tokens for that row and the table is unchanged |
| GoogleAuthenticationService.EmailOfLocalAccountRefused | src/iam/authentication/social/google-authentication.service.ts:33-44 | a first federated sign-in whose email is already taken cannot create its row and is refused as Unauthorized with no change |
| Strings.Split | src/iam/authentication/guards/access-token.guard.ts:51 | splitting gives at least one piece and no piece contains the separator |
| Strings.JoinSplit | src/iam/authentication/guards/access-token.guard.ts:51 | joining the pieces with the separator gives back the header |
| AccessTokenGuard.GetBearerToken | src/iam/authentication/guards/access-token.guard.ts:44-58 | an extracted token never contains a space |
| AccessTokenGuard.CanActivate | src/iam/authentication/guards/access-token.guard.ts:22-42 | never answers false; succeeds exactly when a non-empty token is extracted and verifies, and then attaches exactly the decoded claims to the request; every failure is a bare Unauthorized |
| AccessTokenGuard.BearerTokenShape | src/iam/authentication/guards/access-token.guard.ts:44-58 | a token is extracted exactly when the header starts with `Bearer ` (case-sensitive), and it is the text up to the next space or the end |
| AccessTokenGuard.BearerTokenExtracted | src/iam/authentication/guards/access-token.guard.ts:51-57 | `Bearer t`, optionally followed by a space and anything, yields exactly t for any space-free t |
| AccessTokenGuard.MissingHeaderRejected | src/iam/authentication/guards/access-token.guard.ts:45-49 | a missing or empty header is refused with Unauthorized whatever the verifier does |
| AccessTokenGuard.WrongSchemeRejected | src/iam/authentication/guards/access-token.guard.ts:51-55 | a header whose first piece is not exactly `Bearer` is refused with Unauthorized |
| AccessTokenGuard.EmptyTokenRejected | src/iam/authentication/guards/access-token.guard.ts:24-28 | `Bearer` with nothing, or a second space, after it yields an empty token and is refused with Unauthorized |
| AuthenticationGuard.ResolveAuthTypes | src/iam/authentication/guards/authentication/authentication.guard.ts:26-29 | the handler's declaration overrides the controller's; with neither the list is `[Bearer]`; the list is empty only when an empty list was declared |
| AuthenticationGuard.Evaluate | src/iam/authentication/guards/authentication/authentication.guard.ts:15-18 | the guard registered for `None` allows and hands on the request untouched; the one for `Bearer` throws exactly when the access-token guard throws, with its error, and allows exactly when that guard answers true, handing on the request as that guard left it |
| AuthenticationGuard.RunGuards | src/iam/authentication/guards/authentication/authentication.guard.ts:30-46 | never runs more guards than declared, and runs all of them when it throws |
| AuthenticationGuard.CanActivate | src/iam/authentication/guards/authentication/authentication.guard.ts:25-47 | when it throws, every declared guard has run |
| AuthenticationGuard.AllowedIffSomeGuardAllows | src/iam/authentication/guards/authentication/authentication.guard.ts:34-40 | the composite allows exactly when some declared guard allows |
| AuthenticationGuard.FirstAllowWins | src/iam/authentication/guards/authentication/authentication.guard.ts:34-40 | the first allowing guard decides the request handed on, and no later guard runs |
| AuthenticationGuard.LastThrowWins | src/iam/authentication/guards/authentication/authentication.guard.ts:30-46 | with no allow, the error thrown is the last one a guard threw, or the initial Unauthorized if none threw; a false answer never replaces it |
| AuthenticationGuard.NoneAlwaysAllows | src/iam/authentication/guards/authentication/authentication.guard.ts:15-40 | any declaration containing `None` allows |
| AuthenticationGuard.NoneFirstSkipsBearer | src/iam/authentication/guards/authentication/authentication.guard.ts:32-40 | with `None` first, one guard runs, the request passes untouched, and the bearer guard's behaviour is irrelevant |
| AuthenticationGuard.EmptyDeclarationRejects | src/iam/authentication/guards/authentication/authentication.guard.ts:26-46 | an explicitly empty declaration runs no guard and throws the initial Unauthorized |
| AuthenticationGuard.UndeclaredRequiresBearer | src/iam/authentication/guards/authentication/authentication.guard.ts:14-46 | with no declaration, a request without a header is refused with Unauthorized, and so is one the bearer guard answers false for |
| PrismaUserDomainMapper.ToDomain | src/users/mappers/prisma/user-domain.mapper.ts:10-21 | id, email, name, password, login attempts, role and both timestamps are copied; the federated id is not |
| PrismaUserDomainMapper.ToDto | src/users/mappers/prisma/user-domain.mapper.ts:23-30 | the result is exactly `{name, email, password, role}` of the row |
| PrismaUserDomainMapper.ToPersistence | src/users/mappers/prisma/user-domain.mapper.ts:32-43 | the same seven fields and role are copied back; the federated id is not |
| PrismaUserDomainMapper.RowRoundTrip | src/users/mappers/prisma/user-domain.mapper.ts:10-43 | row to domain to row is the identity except for the federated id, and is the identity exactly on rows without one |
| PrismaUserDomainMapper.DomainRoundTrip | src/users/mappers/prisma/user-domain.mapper.ts:10-43 | domain to row to domain is the identity except for the federated id |
| UserDomainMapper.ToInputDto | src/users/mappers/user-domain.mapper.ts:10-17 | the result is exactly `{name, email, password, role}` of the user |
| UserDomainMapper.ToResponseDto | src/users/mappers/user-domain.mapper.ts:19-29 | id, email, name, login attempts and role are copied and the timestamps are their ISO renderings |
| UserDomainMapper.ToPersistence | src/users/mappers/user-domain.mapper.ts:31-43 | every field, the federated id included, is copied unchanged |
| UserDomainMapper.ResponseHidesSecrets | src/users/mappers/user-domain.mapper.ts:19-29 | users differing only in password or federated id have the same response |
| UserDomainMapper.InputAndResponseAgreeOnRole | src/users/mappers/user-domain.mapper.ts:10-29 | the input shape and the response carry the same role |
| UserDomainMapper.PersistenceIsInjective | src/users/mappers/user-domain.mapper.ts:31-43 | distinct domain users map to distinct rows |
| UserPersistenceMapper.ToDomain | src/users/mappers/user-persistence.mapper.ts:12-23 | id, email, name, password, login attempts, role and both timestamps are copied; the federated id is not |
| UserPersistenceMapper.ToInputDto | src/users/mappers/user-persistence.mapper.ts:25-32 | the result is exactly `{name, email, password, role}` of the row |
| UserPersistenceMapper.ToResponseDto | src/users/mappers/user-persistence.mapper.ts:34-44 | the response copies the public fields and renders the timestamps; it has no password |
| UserPersistenceMapper.ResponseHidesSecrets | src/users/mappers/user-persistence.mapper.ts:34-44 | rows differing only in password or federated id have the same response |
| UserPersistenceMapper.ViewsCommuteThroughDomain | src/users/mappers/user-persistence.mapper.ts:12-44 | the row's response and input shapes equal those of its domain user, so the domain user and the response agree on id, email, name, login attempts and role |
| UserPersistenceMapper.AgreesWithPrismaMapper | src/users/mappers/user-persistence.mapper.ts:12-32 | this mapper and the Prisma mapper read a row identically |
| UserPersistenceMapper.ReadBackAfterPersist | src/users/mappers/user-persistence.mapper.ts:12-22 | reading back a user stored by the domain mapper gives the user except for the federated id |
| AuthenticationFlows.SignUpThenSignIn | src/iam/authentication/authentication.service.ts:36-79 | if a password matches its own digest, a user who signed up signs in with the same email and password and gets tokens for the new row |
| AuthenticationFlows.SignUpStoresOnlyDigest | src/iam/authentication/authentication.service.ts:62-71 | the raw password matters only through its digest: passwords with equal digests give the same table and answer |
| AuthenticationFlows.UnknownEmailNeverCompared | src/iam/authentication/authentication.service.ts:39-43 | an email no row has gives "User not found" whatever the hashing provider does |
| AuthenticationFlows.SamePasswordNeverHashed | src/iam/authentication/authentication.service.ts:87-93 | with equal passwords the answer and the table do not depend on the hashing provider |
| AuthenticationFlows.ChangePasswordThenSignIn | src/iam/authentication/authentication.service.ts:95-110 | after a successful change the new password signs the user in |
| AuthenticationFlows.RefreshReplayDenied | src/iam/authentication/authentication.service.ts:125-136 | after a successful refresh, the same token is refused with "Access denied" |
| AuthenticationFlows.IssuedRefreshTokenNotRecorded | src/iam/authentication/authentication.service.ts:146-160 | a freshly issued refresh token is refused with "Access denied" unless the slot already held its rotation id |
| AuthenticationFlows.InsertedRefreshTokenRedeemed | src/iam/authentication/authentication.service.ts:125-136 | once the rotation id is in the slot, the refresh token is redeemed: the slot is emptied and a new pair issued |
| AuthenticationFlows.AccessTokenNotRefreshable | src/iam/authentication/authentication.service.ts:115-143 | an access token presented for refresh is refused with "Access denied" whatever the slot holds |
| AuthenticationFlows.IssuedAccessTokenPassesGuard | src/iam/authentication/guards/access-token.guard.ts:22-42 | an issued access token sent as `Bearer <token>` passes and attaches the user's id, email and role |
| AuthenticationFlows.IssuedRefreshTokenPassesGuard | src/iam/authentication/guards/access-token.guard.ts:30-36 | an issued refresh token sent as a bearer token passes the access guard too |
| AuthenticationFlows.IssuedAccessTokenPassesDefaultPolicy | src/iam/authentication/guards/authentication/authentication.guard.ts:25-47 | an undeclared endpoint admits an issued access token after one guard and hands on the request with the user's claims |

## Left out

- Redis and Prisma I/O: the cache and the user table are in-memory maps. Connection failures and the latency between the calls are not modelled.
- Cryptography: bcrypt, JWT signing and the OAuth2 client are abstract functions. Their laws are hypotheses, not proofs.
- Token expiry, issuer and audience checks: these are folded into `verify` being partial. The lifetimes are carried but never interpreted.
- Concurrency: the two signings of `generateTokens` (under `Promise.all`) run in sequence, access token first. The un-awaited `invalidate` in `refreshTokens` is an ordinary call that finishes before issuance. The race between `validate` and `invalidate` is out of scope.
- Controllers, modules, bootstrap, the e2e helpers and the roles guard: routing and wiring only. The roles guard's source is not part of this model.
- DTO validation decorators (`IsEmail`, `IsStrongPassword`, the password-confirmation match) and the user-exists validator: these are library rules. The services are modelled without them, so `passwordConfirmation` is carried but unused.
- The users service and the response DTO's serialisation: these pass through to the repository.
- Table column defaults and `@updatedAt`: the schema is not part of this model. The default role and login-attempt count are store parameters.
- Optional fields: the row's `id?`, `createdAt?` and `updatedAt?` are taken to be present, as on every row the table returns. A decoded token always has `sub`, and a verified Google payload always has `sub`, `name` and `email`. A payload the verifier returns without these fields is treated as a rejection.
- Dates and `toISOString`: a date is only copied and compared, and the ISO rendering is a parameter. The `Role`/`RoleEnumType` conversions are the identity, so there is one `Role` type.
- UserStore.UpdatePassword: does not bump `updatedAt`, because the `@updatedAt` column behaviour lives in the table schema, which is not part of this model.

=== FILE: access_token_guard.dfy ===
/** The bearer-token gate (`AccessTokenGuard`): read the `authorization`
    header, take the token after the `Bearer` scheme, verify it, and attach
    the decoded claims to the request. */
module AccessTokenGuard {
  import opened Common
  import opened Strings
  import opened Jwt

  /** The part of a request the guard reads and writes: the raw header and
      the claims attached under the request-user key. */
  datatype Request = Request(authorization: Option<string>, user: Option<Claims>)

  /** What a guard answers when it does not throw: allow or not, and the
      request as it left it. */
  datatype Activation = Activation(allowed: bool, request: Request)

  const Scheme: string := "Bearer"

  /** `getBearerToken(request)`: nothing for a missing or empty header or a
      scheme other than exactly `Bearer`; otherwise the second
      space-separated piece, which is absent (`undefined`) when the header
      has no space. */
  function GetBearerToken(authorization: Option<string>): (token: Option<string>)
    ensures token.Some? ==> ' ' !in token.value
  {
    if authorization.None? || authorization.value == "" then None
    else
      var parts := Split(authorization.value, ' ');
      if parts[0] != Scheme then None
      else if |parts| < 2 then None
      else Some(parts[1])
  }

  /** `canActivate(context)`: throws Unauthorized when there is no token or
      it fails verification, and otherwise answers true with the claims
      attached. It never answers false. */
  function CanActivate(request: Request, verify: string -> Option<Claims>): (r: Result<Activation>)
    ensures r.Success? ==> r.value.allowed
    ensures r.Failure? ==> r.error == Unauthorized(DefaultUnauthorized)
    ensures r.Success? <==>
      && GetBearerToken(request.authorization).Some?
      && GetBearerToken(request.authorization).value != ""
      && verify(GetBearerToken(request.authorization).value).Some?
    ensures r.Success? ==>
      r.value.request == request.(user := verify(GetBearerToken(request.authorization).value))
  {
    var token := GetBearerToken(request.authorization);
    if token.None? || token.value == "" then Failure(Unauthorized(DefaultUnauthorized))
    else
      match verify(token.value)
      case None => Failure(Unauthorized(DefaultUnauthorized))
      case Some(payload) => Success(Activation(true, request.(user := Some(payload))))
  }

  /** A header yields a token exactly when it starts with `Bearer `; the
      token is then the text up to the next space. */
  lemma {:induction false} BearerTokenShape(h: string)
    ensures GetBearerToken(Some(h)).Some? <==> |h| > |Scheme| && h[..|Scheme| + 1] == Scheme + " "
    ensures GetBearerToken(Some(h)).Some? ==>
      var t := GetBearerToken(Some(h)).value;
      && |h| >= |Scheme| + 1 + |t|
      && h[..|Scheme| + 1 + |t|] == Scheme + " " + t
      && (|h| == |Scheme| + 1 + |t| || h[|Scheme| + 1 + |t|] == ' ')
  {
    var s := |Scheme|;
    if |h| > s && h[..s + 1] == Scheme + " " {
      assert h == Scheme + [' '] + h[s + 1..];
      SplitAtFirstSeparator(Scheme, h[s + 1..], ' ');
    }
    if GetBearerToken(Some(h)).Some? {
      var parts := Split(h, ' ');
      JoinSplit(h, ' ');
      var t := parts[1];
      assert h == Scheme + [' '] + Join(parts[1..], ' ');
      if |parts| == 2 {
        assert Join(parts[1..], ' ') == t;
      } else {
        assert parts[1..][1..] == parts[2..];
        assert Join(parts[1..], ' ') == t + [' '] + Join(parts[2..], ' ');
        assert h == Scheme + " " + t + [' '] + Join(parts[2..], ' ');
      }
    }
  }

  /** `Bearer <t>` yields `t` for any space-free `t`, whatever follows a
      further space. */
  lemma {:induction false} BearerTokenExtracted(t: string, rest: string)
    requires ' ' !in t
    requires rest == "" || rest[0] == ' '
    ensures GetBearerToken(Some(Scheme + " " + t + rest)) == Some(t)
  {
    var h := Scheme + " " + t + rest;
    assert h == Scheme + [' '] + (t + rest);
    SplitAtFirstSeparator(Scheme, t + rest, ' ');
    if rest == "" {
      assert t + rest == t;
      SplitWithoutSeparator(t, ' ');
    } else {
      assert t + rest == t + [' '] + rest[1..];
      SplitAtFirstSeparator(t, rest[1..], ' ');
    }
  }

  /** Without a header, or with an empty one, the guard throws and the
      verifier is never consulted: every verifier gives the same answer. */
  lemma MissingHeaderRejected(request: Request, v1: string -> Option<Claims>, v2: string -> Option<Claims>)
    requires request.authorization.None? || request.authorization == Some("")
    ensures CanActivate(request, v1) == Failure(Unauthorized(DefaultUnauthorized))
    ensures CanActivate(request, v1) == CanActivate(request, v2)
  {
  }

  /** A header whose first piece is not exactly `Bearer` is rejected before
      verification. */
  lemma WrongSchemeRejected(request: Request, verify: string -> Option<Claims>)
    requires request.authorization.Some?
    requires Split(request.authorization.value, ' ')[0] != Scheme
    ensures CanActivate(request, verify) == Failure(Unauthorized(DefaultUnauthorized))
  {
  }

  /** `Bearer` followed by nothing, or by a second space, leaves an empty
      token, which is rejected before verification. */
  lemma EmptyTokenRejected(request: Request, rest: string, verify: string -> Option<Claims>)
    requires rest == "" || rest[0] == ' '
    requires request.authorization == Some(Scheme + " " + rest)
    ensures CanActivate(request, verify) == Failure(Unauthorized(DefaultUnauthorized))
  {
    assert Scheme + " " + rest == Scheme + " " + "" + rest;
    BearerTokenExtracted("", rest);
  }
}

=== FILE: authentication_flows.dfy ===
/** Properties of whole flows: an operation followed by another one, or a
    token issued by the service and presented to a guard. The hashing and
    signing laws these rely on are stated as hypotheses. */
module AuthenticationFlows {
  import opened Common
  import opened Users
  import opened Jwt
  import UserStore
  import Slots = RefreshTokensIdsStorage
  import opened AuthenticationService
  import Guard = AccessTokenGuard
  import Composite = AuthenticationGuard

  /** A user who just signed up can sign in with the same email and
      password, and receives tokens for the new row. */
  lemma SignUpThenSignIn(
    users: UserStore.Store, env: Env, dto: SignUpDto, newUserId: string, now: Date,
    refreshTokenId: string, nextRefreshTokenId: string)
    requires UserStore.Valid(users)
    requires CompareAcceptsOwnDigest(env.hasher)
    requires SignUp(users, env, dto, newUserId, now, refreshTokenId).result.Success?
    ensures var after := SignUp(users, env, dto, newUserId, now, refreshTokenId).state;
      SignIn(after, env, SignInDto(dto.email, dto.password), nextRefreshTokenId)
        == GenerateTokens(env, after.rows[newUserId], nextRefreshTokenId)
  {
    var after := SignUp(users, env, dto, newUserId, now, refreshTokenId).state;
    assert UserStore.Valid(after);
    assert after.rows[newUserId].email == dto.email;
    assert after.byEmail[dto.email] == newUserId;
  }

  /** The raw password reaches the table only through its digest: two
      passwords with the same digest produce the same table and the same
      answer. */
  lemma SignUpStoresOnlyDigest(
    users: UserStore.Store, env: Env, dto: SignUpDto, other: string, newUserId: string, now: Date,
    refreshTokenId: string)
    requires env.hasher.hash(other) == env.hasher.hash(dto.password)
    ensures SignUp(users, env, dto.(password := other, passwordConfirmation := other), newUserId, now, refreshTokenId)
         == SignUp(users, env, dto, newUserId, now, refreshTokenId)
  {
  }

  /** An unknown email is refused before the password is looked at: the
      answer is the same whatever the hashing provider does. */
  lemma UnknownEmailNeverCompared(users: UserStore.Store, env: Env, other: Hasher, dto: SignInDto, refreshTokenId: string)
    requires UserStore.Valid(users)
    requires forall id :: id in users.rows ==> users.rows[id].email != dto.email
    ensures SignIn(users, env, dto, refreshTokenId) == Failure(Unauthorized(UserNotFound))
    ensures SignIn(users, env.(hasher := other), dto, refreshTokenId) == SignIn(users, env, dto, refreshTokenId)
  {
  }

  /** Repeating the current password is refused before any hashing and
      whether or not the caller's row exists: the answer and the table are
      the same whatever the hashing provider does. */
  lemma SamePasswordNeverHashed(
    users: UserStore.Store, env: Env, other: Hasher, dto: ChangePasswordDto, activeUser: Claims,
    refreshTokenId: string)
    requires dto.oldPassword == dto.newPassword
    ensures ChangePassword(users, env.(hasher := other), dto, activeUser, refreshTokenId)
         == ChangePassword(users, env, dto, activeUser, refreshTokenId)
  {
  }

  /** After a password change the new password signs in. */
  lemma ChangePasswordThenSignIn(
    users: UserStore.Store, env: Env, dto: ChangePasswordDto, activeUser: Claims,
    refreshTokenId: string, nextRefreshTokenId: string)
    requires UserStore.Valid(users)
    requires CompareAcceptsOwnDigest(env.hasher)
    requires ChangePassword(users, env, dto, activeUser, refreshTokenId).result.Success?
    ensures var after := ChangePassword(users, env, dto, activeUser, refreshTokenId).state;
      && activeUser.sub in after.rows
      && SignIn(after, env, SignInDto(after.rows[activeUser.sub].email, dto.newPassword), nextRefreshTokenId)
           == GenerateTokens(env, after.rows[activeUser.sub], nextRefreshTokenId)
  {
    var after := ChangePassword(users, env, dto, activeUser, refreshTokenId).state;
    var sub := activeUser.sub;
    assert UserStore.Valid(after);
    assert after.byEmail[after.rows[sub].email] == sub;
  }

  /** A refresh token works once: after a successful refresh, presenting it
      again is refused with "Access denied". */
  lemma RefreshReplayDenied(
    users: UserStore.Store, slots: Slots.Cache, env: Env, refreshToken: string,
    refreshTokenId: string, nextRefreshTokenId: string)
    requires RefreshTokens(users, slots, env, refreshToken, refreshTokenId).result.Success?
    ensures var after := RefreshTokens(users, slots, env, refreshToken, refreshTokenId).state;
      RefreshTokens(users, after, env, refreshToken, nextRefreshTokenId).result == Failure(Unauthorized(AccessDenied))
  {
  }

  /** Issuing tokens records nothing in the user's refresh slot, so a
      freshly issued refresh token is refused with "Access denied" unless
      the slot already held its rotation id. */
  lemma IssuedRefreshTokenNotRecorded(
    users: UserStore.Store, slots: Slots.Cache, env: Env, user: UserEntity,
    refreshTokenId: string, nextRefreshTokenId: string)
    requires VerifyInvertsSign(env.signer)
    requires UserStore.FindOne(users, user.id) == Some(user)
    requires GenerateTokens(env, user, refreshTokenId).Success?
    requires Slots.Stored(slots, user.id) != Some(refreshTokenId)
    ensures RefreshTokens(users, slots, env, GenerateTokens(env, user, refreshTokenId).value.refreshToken, nextRefreshTokenId)
         == Step(Failure(Unauthorized(AccessDenied)), slots)
  {
  }

  /** Had the rotation id been inserted into the slot, the refresh token
      would be redeemed: the slot is emptied and a new pair issued. */
  lemma InsertedRefreshTokenRedeemed(
    users: UserStore.Store, slots: Slots.Cache, env: Env, user: UserEntity,
    refreshTokenId: string, nextRefreshTokenId: string)
    requires VerifyInvertsSign(env.signer)
    requires UserStore.FindOne(users, user.id) == Some(user)
    requires GenerateTokens(env, user, refreshTokenId).Success?
    ensures var stored := Slots.Insert(slots, user.id, refreshTokenId);
      RefreshTokens(users, stored, env, GenerateTokens(env, user, refreshTokenId).value.refreshToken, nextRefreshTokenId)
        == Step(GenerateTokens(env, user, nextRefreshTokenId), Slots.Invalidate(stored, user.id))
  {
  }

  /** An access token presented for refresh carries no rotation id and is
      refused with "Access denied", whatever the slot holds. */
  lemma AccessTokenNotRefreshable(
    users: UserStore.Store, slots: Slots.Cache, env: Env, user: UserEntity,
    refreshTokenId: string, nextRefreshTokenId: string)
    requires VerifyInvertsSign(env.signer)
    requires UserStore.FindOne(users, user.id) == Some(user)
    requires GenerateTokens(env, user, refreshTokenId).Success?
    ensures RefreshTokens(users, slots, env, GenerateTokens(env, user, refreshTokenId).value.accessToken, nextRefreshTokenId)
         == Step(Failure(Unauthorized(AccessDenied)), slots)
  {
  }

  /** An issued access token, sent as `Bearer <token>`, passes the access
      guard, which attaches the user's id, email and role. */
  lemma IssuedAccessTokenPassesGuard(env: Env, user: UserEntity, refreshTokenId: string, request: Guard.Request)
    requires VerifyInvertsSign(env.signer) && CompactTokens(env.signer)
    requires GenerateTokens(env, user, refreshTokenId).Success?
    requires request.authorization == Some(Guard.Scheme + " " + GenerateTokens(env, user, refreshTokenId).value.accessToken)
    ensures Guard.CanActivate(request, env.signer.verify)
         == Success(Guard.Activation(true, request.(user := Some(AccessClaims(user)))))
  {
    var token := GenerateTokens(env, user, refreshTokenId).value.accessToken;
    assert Guard.Scheme + " " + token == Guard.Scheme + " " + token + "";
    Guard.BearerTokenExtracted(token, "");
  }

  /** The access guard does not tell the two kinds of token apart: an issued
      refresh token, sent as a bearer token, passes it too, attaching claims
      with no email and no role. */
  lemma IssuedRefreshTokenPassesGuard(env: Env, user: UserEntity, refreshTokenId: string, request: Guard.Request)
    requires VerifyInvertsSign(env.signer) && CompactTokens(env.signer)
    requires GenerateTokens(env, user, refreshTokenId).Success?
    requires request.authorization == Some(Guard.Scheme + " " + GenerateTokens(env, user, refreshTokenId).value.refreshToken)
    ensures Guard.CanActivate(request, env.signer.verify)
         == Success(Guard.Activation(true, request.(user := Some(RefreshClaims(user, refreshTokenId)))))
  {
    var token := GenerateTokens(env, user, refreshTokenId).value.refreshToken;
    assert Guard.Scheme + " " + token == Guard.Scheme + " " + token + "";
    Guard.BearerTokenExtracted(token, "");
  }

  /** An endpoint with no declaration admits a request bearing an issued
      access token and hands on the request with the user's claims. */
  lemma IssuedAccessTokenPassesDefaultPolicy(env: Env, user: UserEntity, refreshTokenId: string, request: Guard.Request)
    requires VerifyInvertsSign(env.signer) && CompactTokens(env.signer)
    requires GenerateTokens(env, user, refreshTokenId).Success?
    requires request.authorization == Some(Guard.Scheme + " " + GenerateTokens(env, user, refreshTokenId).value.accessToken)
    ensures Composite.CanActivate(None, None, request, r => Guard.CanActivate(r, env.signer.verify))
         == Composite.Decision(Success(request.(user := Some(AccessClaims(user)))), 1)
  {
    IssuedAccessTokenPassesGuard(env, user, refreshTokenId, request);
  }
}

=== FILE: authentication_guard.dfy ===
/** Guard composition (`AuthenticationGuard`): each endpoint declares an
    ordered list of accepted authentication types; the guards for them run
    in that order, the first one that allows wins, and otherwise the last
    error thrown (initially a bare Unauthorized) is thrown. */
module AuthenticationGuard {
  import opened Common
  import opened AccessTokenGuard
  import Jwt

  /** `AuthType.Bearer` and `AuthType.None`. */
  datatype AuthType = AuthBearer | AuthNone

  const DefaultAuthType: AuthType := AuthBearer

  /** What one guard did: allowed (with the request as it left it), answered
      false, or threw. */
  datatype Outcome = Allow(request: Request) | Deny | Throw(error: Error)

  /** The guard behind `Bearer`; the one the application wires in is
      `AccessTokenGuard.CanActivate` with the signer's verifier. */
  type BearerGuard = Request -> Result<Activation>

  /** The composite's verdict: the request to hand on, or the error thrown,
      and how many guards were run to reach it. */
  datatype Decision = Decision(result: Result<Request>, evaluated: nat)

  /** `reflector.getAllAndOverride(AUTH_TYPE_KEY, [handler, controller]) ??
      [defaultAuthType]`: the handler's declaration, else the controller's, else
      `[Bearer]`. A declared empty list is kept. */
  function ResolveAuthTypes(handler: Option<seq<AuthType>>, controller: Option<seq<AuthType>>): (types: seq<AuthType>)
    ensures handler.Some? ==> types == handler.value
    ensures handler.None? && controller.Some? ==> types == controller.value
    ensures handler.None? && controller.None? ==> types == [DefaultAuthType]
    ensures types == [] <==> handler == Some([]) || (handler.None? && controller == Some([]))
  {
    match handler
    case Some(types) => types
    case None =>
      match controller
      case Some(types) => types
      case None => [DefaultAuthType]
  }

  /** Runs the guard registered for one authentication type: `None` always
      allows, `Bearer` defers to the bearer guard. */
  function Evaluate(authType: AuthType, request: Request, bearer: BearerGuard): (o: Outcome)
    ensures authType == AuthNone ==> o == Allow(request)
    ensures authType == AuthBearer ==>
      && (o.Throw? <==> bearer(request).Failure?)
      && (o.Throw? ==> o.error == bearer(request).error)
      && (o.Allow? <==> bearer(request).Success? && bearer(request).value.allowed)
      && (o.Allow? ==> o.request == bearer(request).value.request)
  {
    match authType
    case AuthNone => Allow(request)
    case AuthBearer =>
      match bearer(request)
      case Success(activation) => if activation.allowed then Allow(activation.request) else Deny
      case Failure(e) => Throw(e)
  }

  /** The loop over the guards, with `pending` the error to throw if none
      allows. A guard that refuses leaves the request as it found it. */
  function RunGuards(types: seq<AuthType>, request: Request, bearer: BearerGuard, pending: Error): (d: Decision)
    ensures d.evaluated <= |types|
    ensures d.result.Failure? ==> d.evaluated == |types|
    decreases |types|
  {
    if |types| == 0 then Decision(Failure(pending), 0)
    else
      match Evaluate(types[0], request, bearer)
      case Allow(r) => Decision(Success(r), 1)
      case Deny =>
        var d := RunGuards(types[1..], request, bearer, pending);
        d.(evaluated := d.evaluated + 1)
      case Throw(e) =>
        var d := RunGuards(types[1..], request, bearer, e);
        d.(evaluated := d.evaluated + 1)
  }

  /** `canActivate(context)`. */
  function CanActivate(handler: Option<seq<AuthType>>, controller: Option<seq<AuthType>>, request: Request, bearer: BearerGuard)
    : (d: Decision)
    ensures d.result.Failure? ==> d.evaluated == |ResolveAuthTypes(handler, controller)|
  {
    RunGuards(ResolveAuthTypes(handler, controller), request, bearer, Unauthorized(DefaultUnauthorized))
  }

  /** The composite allows exactly when some declared guard allows. */
  lemma {:induction false} AllowedIffSomeGuardAllows(types: seq<AuthType>, request: Request, bearer: BearerGuard, pending: Error)
    ensures RunGuards(types, request, bearer, pending).result.Success? <==>
      exists i :: 0 <= i < |types| && Evaluate(types[i], request, bearer).Allow?
    decreases |types|
  {
    if |types| > 0 {
      var next := if Evaluate(types[0], request, bearer).Throw? then Evaluate(types[0], request, bearer).error else pending;
      AllowedIffSomeGuardAllows(types[1..], request, bearer, next);
      if exists i :: 0 <= i < |types| && Evaluate(types[i], request, bearer).Allow? {
        var i :| 0 <= i < |types| && Evaluate(types[i], request, bearer).Allow?;
        if i > 0 {
          assert types[1..][i - 1] == types[i];
        }
      }
      if exists i :: 0 <= i < |types[1..]| && Evaluate(types[1..][i], request, bearer).Allow? {
        var i :| 0 <= i < |types[1..]| && Evaluate(types[1..][i], request, bearer).Allow?;
        assert types[i + 1] == types[1..][i];
      }
    }
  }

  /** The first guard that allows decides, and no guard after it runs. */
  lemma {:induction false} FirstAllowWins(types: seq<AuthType>, request: Request, bearer: BearerGuard, pending: Error, i: nat)
    requires i < |types|
    requires Evaluate(types[i], request, bearer).Allow?
    requires forall j :: 0 <= j < i ==> !Evaluate(types[j], request, bearer).Allow?
    ensures RunGuards(types, request, bearer, pending).result == Success(Evaluate(types[i], request, bearer).request)
    ensures RunGuards(types, request, bearer, pending).evaluated == i + 1
    decreases i
  {
    if i > 0 {
      var next := if Evaluate(types[0], request, bearer).Throw? then Evaluate(types[0], request, bearer).error else pending;
      assert types[1..][i - 1] == types[i];
      forall j | 0 <= j < i - 1
        ensures !Evaluate(types[1..][j], request, bearer).Allow?
      {
        assert types[1..][j] == types[j + 1];
      }
      FirstAllowWins(types[1..], request, bearer, next, i - 1);
    }
  }

  /** When no guard allows, every guard runs and the error thrown is the
      last one a guard threw; a guard answering false does not replace it,
      and if no guard threw it is the initial error. */
  lemma {:induction false} LastThrowWins(types: seq<AuthType>, request: Request, bearer: BearerGuard, pending: Error)
    requires forall j :: 0 <= j < |types| ==> !Evaluate(types[j], request, bearer).Allow?
    ensures RunGuards(types, request, bearer, pending).evaluated == |types|
    ensures (forall j :: 0 <= j < |types| ==> !Evaluate(types[j], request, bearer).Throw?) ==>
      RunGuards(types, request, bearer, pending).result == Failure(pending)
    ensures forall j ::
      (0 <= j < |types| && Evaluate(types[j], request, bearer).Throw? &&
       (forall k :: j < k < |types| ==> !Evaluate(types[k], request, bearer).Throw?)) ==>
        RunGuards(types, request, bearer, pending).result == Failure(Evaluate(types[j], request, bearer).error)
    decreases |types|
  {
    if |types| > 0 {
      var first := Evaluate(types[0], request, bearer);
      var next := if first.Throw? then first.error else pending;
      var tail := types[1..];
      assert forall k :: 0 <= k < |tail| ==> tail[k] == types[k + 1];
      LastThrowWins(tail, request, bearer, next);
      var d := RunGuards(types, request, bearer, pending);
      assert d.result == RunGuards(tail, request, bearer, next).result;
      forall j | 0 < j < |types| && Evaluate(types[j], request, bearer).Throw? &&
        (forall k :: j < k < |types| ==> !Evaluate(types[k], request, bearer).Throw?)
        ensures d.result == Failure(Evaluate(types[j], request, bearer).error)
      {
        assert tail[j - 1] == types[j];
      }
    }
  }

  /** A declaration that includes `None` always allows. */
  lemma NoneAlwaysAllows(types: seq<AuthType>, request: Request, bearer: BearerGuard, pending: Error)
    requires AuthNone in types
    ensures RunGuards(types, request, bearer, pending).result.Success?
  {
    var i :| 0 <= i < |types| && types[i] == AuthNone;
    assert Evaluate(types[i], request, bearer).Allow?;
    AllowedIffSomeGuardAllows(types, request, bearer, pending);
  }

  /** With `None` declared first the bearer guard never runs: the request
      passes untouched, one guard is evaluated, and the bearer guard's
      behaviour is irrelevant. */
  lemma NoneFirstSkipsBearer(rest: seq<AuthType>, request: Request, b1: BearerGuard, b2: BearerGuard)
    ensures CanActivate(Some([AuthNone] + rest), None, request, b1) == Decision(Success(request), 1)
    ensures CanActivate(Some([AuthNone] + rest), None, request, b1) == CanActivate(Some([AuthNone] + rest), None, request, b2)
  {
  }

  /** An explicitly empty declaration runs no guard and throws the initial
      Unauthorized. */
  lemma EmptyDeclarationRejects(request: Request, bearer: BearerGuard)
    ensures CanActivate(Some([]), None, request, bearer) == Decision(Failure(Unauthorized(DefaultUnauthorized)), 0)
  {
  }

  /** With no declaration the access-token guard is the only gate: a
      request without an authorization header is refused with Unauthorized,
      and a bearer guard answering false is refused the same way. */
  lemma UndeclaredRequiresBearer(request: Request, verify: string -> Option<Jwt.Claims>, denying: BearerGuard)
    requires request.authorization.None?
    requires forall r :: denying(r).Success? && !denying(r).value.allowed
    ensures CanActivate(None, None, request, r => AccessTokenGuard.CanActivate(r, verify))
         == Decision(Failure(Unauthorized(DefaultUnauthorized)), 1)
    ensures CanActivate(None, None, request, denying) == Decision(Failure(Unauthorized(DefaultUnauthorized)), 1)
  {
    assert ResolveAuthTypes(None, None)[1..] == [];
  }
}

=== FILE: authentication_service.dfy ===
/** The credential state machine (`AuthenticationService`): sign-in,
    sign-up, password change, refresh-token rotation and token issuance,
    over an in-memory user table and refresh-slot cache, an abstract hashing
    provider and an abstract signer. Identifiers that the source draws from
    `randomUUID` or the database are parameters. */
module AuthenticationService {
  import opened Common
  import opened Users
  import opened Jwt
  import UserStore
  import Slots = RefreshTokensIdsStorage

  /** The hashing provider. Both operations may reject; `compare` receives
      the stored digest, which is `null` for federated-only accounts. */
  datatype Hasher = Hasher(
    hash: string -> Option<string>,
    compare: (string, Option<string>) -> Option<bool>)

  /** Assumed law: a password matches its own digest. */
  ghost predicate CompareAcceptsOwnDigest(h: Hasher) {
    forall p :: h.hash(p).Some? ==> h.compare(p, h.hash(p)) == Some(true)
  }

  /** The service's collaborators and configuration. */
  datatype Env = Env(hasher: Hasher, signer: Signer, config: JwtConfig)

  datatype TokenPair = TokenPair(accessToken: string, refreshToken: string)

  /** The outcome of an operation that may change a store: what it returned
      or threw, and the store afterwards (changed even when a later step
      threw). */
  datatype Step<S> = Step(result: Result<TokenPair>, state: S)

  datatype SignInDto = SignInDto(email: string, password: string)
  datatype SignUpDto = SignUpDto(name: string, email: string, password: string, passwordConfirmation: string)
  datatype ChangePasswordDto = ChangePasswordDto(oldPassword: string, newPassword: string)

  /** The extra claims of each kind of token. */
  datatype Payload = AccessPayload(email: string, role: Role) | RefreshPayload(refreshTokenId: string)

  /** `{sub: userId, ...payload}`. */
  function PayloadClaims(userId: string, payload: Payload): Claims {
    match payload
    case AccessPayload(email, role) => Claims(userId, Some(email), Some(role), None)
    case RefreshPayload(id) => Claims(userId, None, None, Some(id))
  }

  /** The claims of the access token issued to `user`. */
  function AccessClaims(user: UserEntity): Claims {
    Claims(user.id, Some(user.email), Some(user.role), None)
  }

  /** The claims of the refresh token issued to `user` with rotation id
      `refreshTokenId`. */
  function RefreshClaims(user: UserEntity, refreshTokenId: string): Claims {
    Claims(user.id, None, None, Some(refreshTokenId))
  }

  /** `signToken(userId, expiresIn, payload)`. */
  function SignToken(signer: Signer, userId: string, expiresIn: int, payload: Payload): (r: Result<string>)
    ensures r.Failure? ==> r.error == SigningFailed
    ensures r.Success? <==> signer.sign(Token(PayloadClaims(userId, payload), expiresIn)).Some?
    ensures r.Success? ==> Some(r.value) == signer.sign(Token(PayloadClaims(userId, payload), expiresIn))
    ensures VerifyInvertsSign(signer) && r.Success? ==> signer.verify(r.value) == Some(PayloadClaims(userId, payload))
  {
    match signer.sign(Token(PayloadClaims(userId, payload), expiresIn))
    case None => Failure(SigningFailed)
    case Some(jwt) => Success(jwt)
  }

  /** `generateTokens(user)` with `refreshTokenId` as the fresh rotation id:
      an access token carrying the user's id, email and role for the access
      lifetime and a refresh token carrying the user's id and the rotation
      id for the refresh lifetime. It takes no cache: the rotation id is
      never recorded in the user's refresh slot. */
  function GenerateTokens(env: Env, user: UserEntity, refreshTokenId: string): (r: Result<TokenPair>)
    ensures r.Failure? ==> r.error == SigningFailed
    ensures r.Success? <==>
      && env.signer.sign(Token(AccessClaims(user), env.config.accessTokenTtl)).Some?
      && env.signer.sign(Token(RefreshClaims(user, refreshTokenId), env.config.refreshTokenTtl)).Some?
    ensures r.Success? ==>
      && Some(r.value.accessToken) == env.signer.sign(Token(AccessClaims(user), env.config.accessTokenTtl))
      && Some(r.value.refreshToken) == env.signer.sign(Token(RefreshClaims(user, refreshTokenId), env.config.refreshTokenTtl))
    ensures VerifyInvertsSign(env.signer) && r.Success? ==>
      && env.signer.verify(r.value.accessToken) == Some(AccessClaims(user))
      && env.signer.verify(r.value.refreshToken) == Some(RefreshClaims(user, refreshTokenId))
  {
    var accessToken :- SignToken(env.signer, user.id, env.config.accessTokenTtl, AccessPayload(user.email, user.role));
    var refreshToken :- SignToken(env.signer, user.id, env.config.refreshTokenTtl, RefreshPayload(refreshTokenId));
    Success(TokenPair(accessToken, refreshToken))
  }

  /** `signIn({email, password})`. */
  function SignIn(users: UserStore.Store, env: Env, dto: SignInDto, refreshTokenId: string): (r: Result<TokenPair>)
    ensures r == Failure(Unauthorized(UserNotFound)) <==> UserStore.FindByEmail(users, dto.email).None?
    ensures r == Failure(Unauthorized(InvalidCredentials)) <==>
      && UserStore.FindByEmail(users, dto.email).Some?
      && env.hasher.compare(dto.password, UserStore.FindByEmail(users, dto.email).value.password) == Some(false)
    ensures r.Success? ==>
      && UserStore.FindByEmail(users, dto.email).Some?
      && var user := UserStore.FindByEmail(users, dto.email).value;
         && env.hasher.compare(dto.password, user.password) == Some(true)
         && r == GenerateTokens(env, user, refreshTokenId)
    ensures UserStore.FindByEmail(users, dto.email).Some? &&
            env.hasher.compare(dto.password, UserStore.FindByEmail(users, dto.email).value.password) == Some(true) ==>
      r == GenerateTokens(env, UserStore.FindByEmail(users, dto.email).value, refreshTokenId)
    ensures UserStore.FindByEmail(users, dto.email).Some? &&
            env.hasher.compare(dto.password, UserStore.FindByEmail(users, dto.email).value.password).None? ==>
      r == Failure(HashingFailed)
  {
    match UserStore.FindByEmail(users, dto.email)
    case None => Failure(Unauthorized(UserNotFound))
    case Some(user) =>
      match env.hasher.compare(dto.password, user.password)
      case None => Failure(HashingFailed)
      case Some(valid) =>
        if !valid then Failure(Unauthorized(InvalidCredentials))
        else GenerateTokens(env, user, refreshTokenId)
  }

  /** `signUp({name, email, password})`: the new user is created with
      `newUserId` at `now`, storing the digest of the password. */
  function SignUp(users: UserStore.Store, env: Env, dto: SignUpDto, newUserId: string, now: Date, refreshTokenId: string)
    : (r: Step<UserStore.Store>)
    ensures env.hasher.hash(dto.password).None? ==> r == Step(Failure(HashingFailed), users)
    ensures r.result.Failure? ==> r.result.error in {HashingFailed, SigningFailed} || r.result.error.UniqueViolation?
    ensures r.state == users || r.result.Success? || r.result.error == SigningFailed
    ensures r.state != users ==>
      && newUserId !in users.rows
      && r.state.rows.Keys == users.rows.Keys + {newUserId}
      && (forall id :: id in users.rows ==> r.state.rows[id] == users.rows[id])
      && r.state.rows[newUserId].name == dto.name
      && r.state.rows[newUserId].email == dto.email
      && r.state.rows[newUserId].password == env.hasher.hash(dto.password)
      && r.state.rows[newUserId].googleId == None
      && r.result == GenerateTokens(env, r.state.rows[newUserId], refreshTokenId)
    ensures r.result.Success? ==> r.state != users
    ensures env.hasher.hash(dto.password).Some? ==>
      var data := UserStore.NewUser(dto.name, dto.email, env.hasher.hash(dto.password), None);
      && (r.result.Failure? && r.result.error.UniqueViolation? <==> UserStore.Conflicts(users, data, newUserId))
      && (UserStore.Conflicts(users, data, newUserId) ==> r.state == users)
      && (!UserStore.Conflicts(users, data, newUserId) ==> r.state != users)
    ensures r.state != users ==>
      r.state.rows[newUserId] == UserEntity(newUserId, dto.email, dto.name, env.hasher.hash(dto.password),
                                            users.defaults.role, users.defaults.loginAttempts, None, now, now)
    ensures r.state.defaults == users.defaults
    ensures UserStore.Valid(users) ==> UserStore.Valid(r.state)
  {
    match env.hasher.hash(dto.password)
    case None => Step(Failure(HashingFailed), users)
    case Some(digest) =>
      match UserStore.Create(users, UserStore.NewUser(dto.name, dto.email, Some(digest), None), newUserId, now)
      case Failure(e) => Step(Failure(e), users)
      case Success(created) => Step(GenerateTokens(env, created.0, refreshTokenId), created.1)
  }

  /** `changePassword({oldPassword, newPassword}, activeUser)`. The caller's
      row is read first; a `null` row is only dereferenced after the
      same-password check. */
  function ChangePassword(users: UserStore.Store, env: Env, dto: ChangePasswordDto, activeUser: Claims, refreshTokenId: string)
    : (r: Step<UserStore.Store>)
    ensures dto.oldPassword == dto.newPassword ==> r == Step(Failure(BadRequest(SamePassword)), users)
    ensures r.result == Failure(Unauthorized(InvalidCredentials)) <==>
      && dto.oldPassword != dto.newPassword
      && activeUser.sub in users.rows
      && env.hasher.compare(dto.oldPassword, users.rows[activeUser.sub].password) == Some(false)
    ensures r.state == users || r.result.Success? || r.result.error == SigningFailed
    ensures r.state != users || r.result.Success? ==>
      && dto.oldPassword != dto.newPassword
      && activeUser.sub in users.rows
      && var user := users.rows[activeUser.sub];
         && env.hasher.compare(dto.oldPassword, user.password) == Some(true)
         && env.hasher.hash(dto.newPassword).Some?
         && user.id in users.rows
         && r.state.rows == users.rows[user.id := users.rows[user.id].(password := env.hasher.hash(dto.newPassword))]
         && r.result == GenerateTokens(env, user, refreshTokenId)
    ensures dto.oldPassword != dto.newPassword && activeUser.sub !in users.rows ==> r == Step(Failure(NullUser), users)
    ensures dto.oldPassword != dto.newPassword && activeUser.sub in users.rows &&
            env.hasher.compare(dto.oldPassword, users.rows[activeUser.sub].password).None? ==>
      r == Step(Failure(HashingFailed), users)
    ensures dto.oldPassword != dto.newPassword && activeUser.sub in users.rows &&
            env.hasher.compare(dto.oldPassword, users.rows[activeUser.sub].password) == Some(true) &&
            env.hasher.hash(dto.newPassword).None? ==>
      r == Step(Failure(HashingFailed), users)
    ensures UserStore.Valid(users) && dto.oldPassword != dto.newPassword && activeUser.sub in users.rows &&
            env.hasher.compare(dto.oldPassword, users.rows[activeUser.sub].password) == Some(true) &&
            env.hasher.hash(dto.newPassword).Some? ==>
      && r.result == GenerateTokens(env, users.rows[activeUser.sub], refreshTokenId)
      && r.state.rows[activeUser.sub].password == env.hasher.hash(dto.newPassword)
    ensures r.state == users.(rows := r.state.rows)
    ensures UserStore.Valid(users) ==> UserStore.Valid(r.state)
  {
    var user := UserStore.FindOne(users, activeUser.sub);
    if dto.oldPassword == dto.newPassword then Step(Failure(BadRequest(SamePassword)), users)
    else match user
      case None => Step(Failure(NullUser), users)
      case Some(u) =>
        match env.hasher.compare(dto.oldPassword, u.password)
        case None => Step(Failure(HashingFailed), users)
        case Some(valid) =>
          if !valid then Step(Failure(Unauthorized(InvalidCredentials)), users)
          else match env.hasher.hash(dto.newPassword)
            case None => Step(Failure(HashingFailed), users)
            case Some(digest) =>
              match UserStore.UpdatePassword(users, u.id, digest)
              case Failure(e) => Step(Failure(e), users)
              case Success(updated) => Step(GenerateTokens(env, u, refreshTokenId), updated)
  }

  /** `refreshTokenIdsStorage.validate(user.id, refreshTokenId)` with the
      claim as decoded: a missing claim is `undefined`, which is unequal to
      every stored value, so it is always rejected. */
  function ValidateClaim(slots: Slots.Cache, userId: string, claim: Option<string>): (r: Result<bool>)
    ensures r.Success? <==> claim.Some? && Slots.Stored(slots, userId) == claim
    ensures r.Success? ==> r.value
    ensures r.Failure? ==> r.error == InvalidatedRefreshToken
  {
    match claim
    case None => Failure(InvalidatedRefreshToken)
    case Some(tokenId) => Slots.Validate(slots, userId, tokenId)
  }

  /** Whether a decoded refresh token names the id held in its user's slot. */
  predicate SlotMatches(slots: Slots.Cache, userId: string, claims: Claims) {
    claims.refreshTokenId.Some? && Slots.Stored(slots, userId) == claims.refreshTokenId
  }

  /** `refreshTokens({refreshToken})`: on a match the slot is emptied and a
      new pair is issued with rotation id `refreshTokenId`. Inside the
      try-block, an invalidated-token error becomes "Access denied" and
      every other error a bare Unauthorized; the new pair is returned
      without `await`, so a signing rejection escapes the catch. */
  function RefreshTokens(users: UserStore.Store, slots: Slots.Cache, env: Env, refreshToken: string, refreshTokenId: string)
    : (r: Step<Slots.Cache>)
    ensures r.result == Failure(Unauthorized(DefaultUnauthorized)) <==>
      || env.signer.verify(refreshToken).None?
      || env.signer.verify(refreshToken).value.sub !in users.rows
    ensures r.result == Failure(Unauthorized(AccessDenied)) <==>
      && env.signer.verify(refreshToken).Some?
      && var claims := env.signer.verify(refreshToken).value;
         && claims.sub in users.rows
         && !SlotMatches(slots, users.rows[claims.sub].id, claims)
    ensures r.result.Failure? ==>
      r.result.error in {Unauthorized(DefaultUnauthorized), Unauthorized(AccessDenied), SigningFailed}
    ensures r.state != slots || r.result.Success? || r.result == Failure(SigningFailed) ==>
      && env.signer.verify(refreshToken).Some?
      && var claims := env.signer.verify(refreshToken).value;
         && claims.sub in users.rows
         && var user := users.rows[claims.sub];
            && SlotMatches(slots, user.id, claims)
            && r.state == Slots.Invalidate(slots, user.id)
            && r.result == GenerateTokens(env, user, refreshTokenId)
  {
    match env.signer.verify(refreshToken)
    case None => Step(Failure(Unauthorized(DefaultUnauthorized)), slots)
    case Some(claims) =>
      match UserStore.FindOne(users, claims.sub)
      case None => Step(Failure(Unauthorized(DefaultUnauthorized)), slots)
      case Some(user) =>
        match ValidateClaim(slots, user.id, claims.refreshTokenId)
        case Failure(e) =>
          var caught := if e.InvalidatedRefreshToken? then Unauthorized(AccessDenied) else Unauthorized(DefaultUnauthorized);
          Step(Failure(caught), slots)
        case Success(isValid) =>
          if isValid then Step(GenerateTokens(env, user, refreshTokenId), Slots.Invalidate(slots, user.id))
          else Step(Failure(Unauthorized(DefaultUnauthorized)), slots)
  }
}

=== FILE: common.dfy ===
/** Shared vocabulary of the identity core: optional values, results that
    carry one of the errors the services can raise, and the fixed messages
    those errors are raised with. */
module Common {

  /** A value that may be absent: `null`/`undefined` in the source. */
  datatype Option<+T> = None | Some(value: T)

  /** The exceptions the identity core can raise or let through. */
  datatype Error =
    | Unauthorized(message: string)      // UnauthorizedException
    | BadRequest(message: string)        // BadRequestException
    | InvalidatedRefreshToken            // InvalidatedRefreshTokenError (internal)
    | UniqueViolation(field: string)     // the user store refused a duplicate key
    | RecordNotFound                     // the user store has no row to update
    | NullUser                           // a field was read from a `null` user
    | HashingFailed                      // the hashing provider rejected
    | SigningFailed                      // the token signer rejected

  /** Outcome of a fallible step: a value, or the error that was thrown. */
  datatype Result<+T> = Success(value: T) | Failure(error: Error) {

    predicate IsFailure() {
      Failure?
    }

    function PropagateFailure<U>(): Result<U>
      requires Failure?
    {
      Failure(error)
    }

    function Extract(): T
      requires Success?
    {
      value
    }
  }

  /** Message of an `UnauthorizedException` built without arguments. */
  const DefaultUnauthorized: string := "Unauthorized"
  const UserNotFound: string := "User not found"
  const InvalidCredentials: string := "Invalid credentials"
  const AccessDenied: string := "Access denied"
  const SamePassword: string := "New password cannot be the same as the old one"
}

=== FILE: google_authentication_service.dfy ===
/** Federated sign-in (`GoogleAuthenticationService.authenticate`): the
    external id-token verifier is an abstract partial function; the user is
    found by federated id or created without a password, then tokens are
    issued for them. */
module GoogleAuthenticationService {
  import opened Common
  import opened Users
  import UserStore
  import opened AuthenticationService

  /** The fields read from a verified id token. */
  datatype GooglePayload = GooglePayload(sub: string, name: string, email: string)

  /** `verifyIdToken({idToken})`: the payload, or nothing when the token is
      rejected or carries no payload. */
  type IdTokenVerifier = string -> Option<GooglePayload>

  /** The row created for a first-time federated user. */
  function FederatedUser(payload: GooglePayload): UserStore.NewUser {
    UserStore.NewUser(payload.name, payload.email, None, Some(payload.sub))
  }

  /** `authenticate(token)`. Verification, lookup and creation run inside a
      try-block whose catch throws a bare Unauthorized; the token pair is
      returned without `await`, so a signing rejection escapes the catch. */
  function Authenticate(
    users: UserStore.Store, env: Env, verifyIdToken: IdTokenVerifier, token: string,
    newUserId: string, now: Date, refreshTokenId: string)
    : (r: Step<UserStore.Store>)
    ensures verifyIdToken(token).None? ==> r == Step(Failure(Unauthorized(DefaultUnauthorized)), users)
    ensures r.result.Failure? ==> r.result.error in {Unauthorized(DefaultUnauthorized), SigningFailed}
    ensures verifyIdToken(token).Some? && UserStore.FindByGoogleId(users, verifyIdToken(token).value.sub).Some? ==>
      r == Step(GenerateTokens(env, UserStore.FindByGoogleId(users, verifyIdToken(token).value.sub).value, refreshTokenId), users)
    ensures r.state != users ==>
      && verifyIdToken(token).Some?
      && var payload := verifyIdToken(token).value;
         && UserStore.FindByGoogleId(users, payload.sub).None?
         && !UserStore.Conflicts(users, FederatedUser(payload), newUserId)
         && r.state.rows.Keys == users.rows.Keys + {newUserId}
         && (forall id :: id in users.rows ==> r.state.rows[id] == users.rows[id])
         && r.state.rows[newUserId] == UserEntity(newUserId, payload.email, payload.name, None,
                                                  users.defaults.role, users.defaults.loginAttempts,
                                                  Some(payload.sub), now, now)
         && r.result == GenerateTokens(env, r.state.rows[newUserId], refreshTokenId)
    ensures verifyIdToken(token).Some? && UserStore.FindByGoogleId(users, verifyIdToken(token).value.sub).None? ==>
      (r.state != users <==> !UserStore.Conflicts(users, FederatedUser(verifyIdToken(token).value), newUserId))
    ensures verifyIdToken(token).Some? && UserStore.FindByGoogleId(users, verifyIdToken(token).value.sub).None? &&
            UserStore.Conflicts(users, FederatedUser(verifyIdToken(token).value), newUserId) ==>
      r == Step(Failure(Unauthorized(DefaultUnauthorized)), users)
    ensures r.state.defaults == users.defaults
    ensures UserStore.Valid(users) ==> UserStore.Valid(r.state)
  {
    match verifyIdToken(token)
    case None => Step(Failure(Unauthorized(DefaultUnauthorized)), users)
    case Some(payload) =>
      match UserStore.FindByGoogleId(users, payload.sub)
      case Some(user) => Step(GenerateTokens(env, user, refreshTokenId), users)
      case None =>
        match UserStore.Create(users, FederatedUser(payload), newUserId, now)
        case Failure(_) => Step(Failure(Unauthorized(DefaultUnauthorized)), users)
        case Success(created) => Step(GenerateTokens(env, created.0, refreshTokenId), created.1)
  }

  /** The verifier is consulted on `token` alone: verifiers that agree on
      it give the same outcome. */
  lemma VerifierConsultedOnTokenOnly(
    users: UserStore.Store, env: Env, v1: IdTokenVerifier, v2: IdTokenVerifier, token: string,
    newUserId: string, now: Date, refreshTokenId: string)
    requires v1(token) == v2(token)
    ensures Authenticate(users, env, v1, token, newUserId, now, refreshTokenId)
         == Authenticate(users, env, v2, token, newUserId, now, refreshTokenId)
  {
  }

  /** A returning federated user gets tokens for their existing row and the
      table is left alone, whatever id would have been minted. */
  lemma ReturningUserNotRecreated(
    users: UserStore.Store, env: Env, verifyIdToken: IdTokenVerifier, token: string,
    newUserId: string, now: Date, refreshTokenId: string, user: UserEntity)
    requires UserStore.Valid(users)
    requires verifyIdToken(token).Some?
    requires user in users.rows.Values && user.googleId == Some(verifyIdToken(token).value.sub)
    ensures Authenticate(users, env, verifyIdToken, token, newUserId, now, refreshTokenId)
         == Step(GenerateTokens(env, user, refreshTokenId), users)
  {
    var sub := verifyIdToken(token).value.sub;
    var id :| id in users.rows && users.rows[id] == user;
    assert users.rows[id].googleId == Some(sub);
  }

  /** A first federated sign-in with an email that a password account
      already uses cannot create the row, and is refused as Unauthorized. */
  lemma EmailOfLocalAccountRefused(
    users: UserStore.Store, env: Env, verifyIdToken: IdTokenVerifier, token: string,
    newUserId: string, now: Date, refreshTokenId: string, local: UserEntity)
    requires UserStore.Valid(users)
    requires verifyIdToken(token).Some?
    requires local in users.rows.Values && local.email == verifyIdToken(token).value.email
    requires UserStore.FindByGoogleId(users, verifyIdToken(token).value.sub).None?
    ensures Authenticate(users, env, verifyIdToken, token, newUserId, now, refreshTokenId)
         == Step(Failure(Unauthorized(DefaultUnauthorized)), users)
  {
    var id :| id in users.rows && users.rows[id] == local;
    assert users.rows[id].email in users.byEmail;
  }
}

=== FILE: jwt.dfy ===
/** Signed bearer tokens, with the signer reduced to an abstract pair of
    functions. The secret, issuer and audience are fixed inside the signer;
    expiry is folded into `verify` being partial. */
module Jwt {
  import opened Common
  import opened Users

  /** A decoded payload. Every token this core signs carries `sub`; access
      tokens add `email` and `role`, refresh tokens add `refreshTokenId`. */
  datatype Claims = Claims(
    sub: string,
    email: Option<string>,
    role: Option<Role>,
    refreshTokenId: Option<string>)

  /** What is handed to the signer: the payload and its lifetime
      (`expiresIn`). */
  datatype Token = Token(claims: Claims, ttl: int)

  /** The two lifetimes of the JWT configuration. */
  datatype JwtConfig = JwtConfig(accessTokenTtl: int, refreshTokenTtl: int)

  /** `signAsync` (may reject) and `verifyAsync` (rejects a token that is
      forged, expired, or for another issuer or audience). */
  datatype Signer = Signer(sign: Token -> Option<string>, verify: string -> Option<Claims>)

  /** Assumed law: a token the signer produced verifies to its payload. */
  ghost predicate VerifyInvertsSign(s: Signer) {
    forall t :: s.sign(t).Some? ==> s.verify(s.sign(t).value) == Some(t.claims)
  }

  /** Assumed law: a signed token is a non-empty string without spaces (a
      compact JWT is three base64url segments joined by dots). */
  ghost predicate CompactTokens(s: Signer) {
    forall t :: s.sign(t).Some? ==> s.sign(t).value != "" && ' ' !in s.sign(t).value
  }
}

=== FILE: prisma_user_domain_mapper.dfy ===
/** Field projections between the database row and the domain user used by
    the Prisma repository (`PrismaUserDomainMapper`). */
module PrismaUserDomainMapper {
  import opened Common
  import opened Users

  /** The row seen as a domain user. The row's federated id is not copied,
      so the domain user's `googleId` is left unset. */
  function ToDomain(e: UserEntity): (d: UserDomain)
    ensures d.id == e.id && d.email == e.email && d.name == e.name
    ensures d.password == e.password && d.loginAttempts == e.loginAttempts
    ensures d.role == e.role
    ensures d.createdAt == e.createdAt && d.updatedAt == e.updatedAt
    ensures d.googleId == None
  {
    UserDomain(
      id := e.id,
      name := e.name,
      email := e.email,
      password := e.password,
      role := e.role,
      loginAttempts := e.loginAttempts,
      googleId := None,
      createdAt := e.createdAt,
      updatedAt := e.updatedAt)
  }

  /** The creation input of the row: `{name, email, password, role}`. */
  function ToDto(e: UserEntity): (dto: CreateUserDto)
    ensures dto == CreateUserDto(e.name, e.email, e.password, e.role)
  {
    CreateUserDto(
      name := e.name,
      email := e.email,
      password := e.password,
      role := e.role)
  }

  /** The domain user as a row. The domain user's federated id is not
      copied, so the row's `googleId` is left unset. */
  function ToPersistence(d: UserDomain): (e: UserEntity)
    ensures e.id == d.id && e.email == d.email && e.name == d.name
    ensures e.password == d.password && e.loginAttempts == d.loginAttempts
    ensures e.role == d.role
    ensures e.createdAt == d.createdAt && e.updatedAt == d.updatedAt
    ensures e.googleId == None
  {
    UserEntity(
      id := d.id,
      email := d.email,
      name := d.name,
      password := d.password,
      role := d.role,
      loginAttempts := d.loginAttempts,
      googleId := None,
      createdAt := d.createdAt,
      updatedAt := d.updatedAt)
  }

  /** Row -> domain -> row loses exactly the federated id: the round trip
      is the identity on precisely the rows that have none. */
  lemma RowRoundTrip(e: UserEntity)
    ensures ToPersistence(ToDomain(e)) == e.(googleId := None)
    ensures ToPersistence(ToDomain(e)) == e <==> e.googleId == None
  {
  }

  /** Domain -> row -> domain likewise loses exactly the federated id. */
  lemma DomainRoundTrip(d: UserDomain)
    ensures ToDomain(ToPersistence(d)) == d.(googleId := None)
    ensures ToDomain(ToPersistence(d)) == d <==> d.googleId == None
  {
  }
}

=== FILE: refresh_tokens_ids_storage.dfy ===
/** The refresh-token slot of each user (`RefreshTokensIdsStorage`): one
    key per user in the key-value cache, holding the id of the refresh
    token that user may redeem next. */
module RefreshTokensIdsStorage {
  import opened Common

  /** The key-value cache: string keys to string values. */
  type Cache = map<string, string>

  const KeyPrefix: string := "user-"

  /** The cache key of a user's slot: `user-<userId>`. */
  function Key(userId: string): (k: string)
    ensures |k| == |KeyPrefix| + |userId|
    ensures k[..|KeyPrefix|] == KeyPrefix && k[|KeyPrefix|..] == userId
  {
    KeyPrefix + userId
  }

  /** Distinct users never share a slot. */
  lemma KeyInjective(u: string, v: string)
    ensures Key(u) == Key(v) <==> u == v
  {
    if Key(u) == Key(v) {
      assert u == Key(u)[|KeyPrefix|..];
    }
  }

  /** The id currently stored in the user's slot; `null` when it is empty. */
  function Stored(cache: Cache, userId: string): Option<string> {
    if Key(userId) in cache then Some(cache[Key(userId)]) else None
  }

  /** `insert(userId, tokenId)`: overwrites the slot. */
  function Insert(cache: Cache, userId: string, tokenId: string): (c: Cache)
    ensures Stored(c, userId) == Some(tokenId)
  {
    cache[Key(userId) := tokenId]
  }

  /** `validate(userId, tokenId)`: true when the slot holds exactly `tokenId`;
      any other content, an empty slot included, raises
      `InvalidatedRefreshTokenError`. It never answers false. */
  function Validate(cache: Cache, userId: string, tokenId: string): (r: Result<bool>)
    ensures r.Success? <==> Stored(cache, userId) == Some(tokenId)
    ensures r.Success? ==> r.value
    ensures r.Failure? ==> r.error == InvalidatedRefreshToken
  {
    var stored := Stored(cache, userId);
    if stored != Some(tokenId) then Failure(InvalidatedRefreshToken)
    else Success(stored == Some(tokenId))
  }

  /** `invalidate(userId)`: empties the slot. */
  function Invalidate(cache: Cache, userId: string): (c: Cache)
    ensures Stored(c, userId) == None
  {
    cache - {Key(userId)}
  }

  /** What was just inserted validates. */
  lemma InsertThenValidate(cache: Cache, userId: string, tokenId: string)
    ensures Validate(Insert(cache, userId, tokenId), userId, tokenId) == Success(true)
  {
  }

  /** Once a slot is emptied, no id validates against it. */
  lemma InvalidateThenValidate(cache: Cache, userId: string, tokenId: string)
    ensures Validate(Invalidate(cache, userId), userId, tokenId) == Failure(InvalidatedRefreshToken)
  {
  }

  /** Inserting supersedes: the previous id no longer validates. */
  lemma InsertOverwrites(cache: Cache, userId: string, a: string, b: string)
    requires a != b
    ensures Validate(Insert(Insert(cache, userId, a), userId, b), userId, a) == Failure(InvalidatedRefreshToken)
    ensures Validate(Insert(Insert(cache, userId, a), userId, b), userId, b) == Success(true)
  {
  }

  /** Insert and invalidate on one user leave every other user's slot, and
      so every answer `validate` gives about that user, as they were. */
  lemma OtherSlotsUnchanged(cache: Cache, u: string, v: string, tokenId: string, probe: string)
    requires u != v
    ensures Stored(Insert(cache, u, tokenId), v) == Stored(cache, v)
    ensures Stored(Invalidate(cache, u), v) == Stored(cache, v)
    ensures Validate(Insert(cache, u, tokenId), v, probe) == Validate(cache, v, probe)
    ensures Validate(Invalidate(cache, u), v, probe) == Validate(cache, v, probe)
  {
    KeyInjective(u, v);
  }
}

=== FILE: strings.dfy ===
/** JavaScript's `String.prototype.split` with a one-character separator,
    and its inverse `Array.prototype.join`. */
module Strings {

  /** The pieces of `s` between occurrences of `sep`, in order, empty pieces
      included: `"a  b".split(' ')` is `["a", "", "b"]` and `"".split(' ')`
      is `[""]`. */
  function Split(s: string, sep: char): (parts: seq<string>)
    ensures |parts| >= 1
    ensures forall i :: 0 <= i < |parts| ==> sep !in parts[i]
    decreases |s|
  {
    if |s| == 0 then [""]
    else
      var rest := Split(s[1..], sep);
      if s[0] == sep then [""] + rest
      else [[s[0]] + rest[0]] + rest[1..]
  }

  /** The pieces glued back together with `sep` between neighbours. */
  function Join(parts: seq<string>, sep: char): string
    requires |parts| >= 1
    decreases |parts|
  {
    if |parts| == 1 then parts[0]
    else parts[0] + [sep] + Join(parts[1..], sep)
  }

  /** Splitting loses nothing: joining the pieces gives the string back. */
  lemma {:induction false} JoinSplit(s: string, sep: char)
    ensures Join(Split(s, sep), sep) == s
    decreases |s|
  {
    if |s| > 0 {
      var rest := Split(s[1..], sep);
      JoinSplit(s[1..], sep);
      if s[0] == sep {
        assert ([""] + rest)[1..] == rest;
        assert s == [sep] + s[1..];
      } else if |rest| == 1 {
        assert s == [s[0]] + s[1..];
      } else {
        var parts := [[s[0]] + rest[0]] + rest[1..];
        assert parts[1..] == rest[1..];
        assert Join(rest, sep) == rest[0] + [sep] + Join(rest[1..], sep);
        assert s == [s[0]] + s[1..];
      }
    }
  }

  /** A string free of the separator is one piece. */
  lemma {:induction false} SplitWithoutSeparator(s: string, sep: char)
    requires sep !in s
    ensures Split(s, sep) == [s]
    decreases |s|
  {
    if |s| > 0 {
      SplitWithoutSeparator(s[1..], sep);
      assert s == [s[0]] + s[1..];
    }
  }

  /** The first piece ends at the first separator. */
  lemma {:induction false} SplitAtFirstSeparator(p: string, q: string, sep: char)
    requires sep !in p
    ensures Split(p + [sep] + q, sep) == [p] + Split(q, sep)
    decreases |p|
  {
    var s := p + [sep] + q;
    if |p| == 0 {
      assert s[0] == sep && s[1..] == q;
    } else {
      assert s[1..] == p[1..] + [sep] + q;
      SplitAtFirstSeparator(p[1..], q, sep);
      assert p == [p[0]] + p[1..];
    }
  }
}

=== FILE: user_domain_mapper.dfy ===
/** Field projections out of the domain user (`UserDomainMapper`). */
module UserDomainMapper {
  import opened Common
  import opened Users

  /** The creation input of the user: `{name, email, password, role}`. */
  function ToInputDto(d: UserDomain): (dto: CreateUserDto)
    ensures dto == CreateUserDto(d.name, d.email, d.password, d.role)
  {
    CreateUserDto(
      name := d.name,
      email := d.email,
      password := d.password,
      role := d.role)
  }

  /** The outward view of the user, timestamps rendered by `iso` (the
      platform's `Date.prototype.toISOString`). */
  function ToResponseDto(d: UserDomain, iso: Date -> string): (r: UserResponseDto)
    ensures r.id == d.id && r.email == d.email && r.name == d.name
    ensures r.loginAttempts == d.loginAttempts && r.role == d.role
    ensures r.createdAt == iso(d.createdAt) && r.updatedAt == iso(d.updatedAt)
  {
    UserResponseDto(
      id := d.id,
      email := d.email,
      name := d.name,
      loginAttempts := d.loginAttempts,
      role := d.role,
      createdAt := iso(d.createdAt),
      updatedAt := iso(d.updatedAt))
  }

  /** The domain user as a row; unlike the Prisma mapper this one keeps the
      federated id. */
  function ToPersistence(d: UserDomain): (e: UserEntity)
    ensures e.id == d.id && e.email == d.email && e.name == d.name
    ensures e.password == d.password && e.loginAttempts == d.loginAttempts
    ensures e.role == d.role && e.googleId == d.googleId
    ensures e.createdAt == d.createdAt && e.updatedAt == d.updatedAt
  {
    UserEntity(
      id := d.id,
      email := d.email,
      name := d.name,
      password := d.password,
      role := d.role,
      loginAttempts := d.loginAttempts,
      googleId := d.googleId,
      createdAt := d.createdAt,
      updatedAt := d.updatedAt)
  }

  /** The response never carries the password or the federated id: two users
      that differ only there have the same response. */
  lemma ResponseHidesSecrets(d: UserDomain, password: Option<string>, googleId: Option<string>, iso: Date -> string)
    ensures ToResponseDto(d.(password := password, googleId := googleId), iso) == ToResponseDto(d, iso)
  {
  }

  /** The input shape and the response agree on the role. */
  lemma InputAndResponseAgreeOnRole(d: UserDomain, iso: Date -> string)
    ensures ToInputDto(d).role == ToResponseDto(d, iso).role
  {
  }

  /** `ToPersistence` loses nothing: distinct domain users become distinct
      rows. */
  lemma PersistenceIsInjective(d1: UserDomain, d2: UserDomain)
    ensures ToPersistence(d1) == ToPersistence(d2) <==> d1 == d2
  {
  }
}

=== FILE: user_persistence_mapper.dfy ===
/** Field projections out of the database row used by the repository that
    serves the users and authentication services (`UserPersistenceMapper`). */
module UserPersistenceMapper {
  import opened Common
  import opened Users
  import UserDomainMapper
  import PrismaUserDomainMapper

  /** The row as a domain user; the federated id is not copied. */
  function ToDomain(e: UserEntity): (d: UserDomain)
    ensures d.id == e.id && d.email == e.email && d.name == e.name
    ensures d.password == e.password && d.loginAttempts == e.loginAttempts
    ensures d.role == e.role
    ensures d.createdAt == e.createdAt && d.updatedAt == e.updatedAt
    ensures d.googleId == None
  {
    UserDomain(
      id := e.id,
      name := e.name,
      email := e.email,
      password := e.password,
      role := e.role,
      loginAttempts := e.loginAttempts,
      googleId := None,
      createdAt := e.createdAt,
      updatedAt := e.updatedAt)
  }

  /** The creation input of the row: `{name, email, password, role}`. */
  function ToInputDto(e: UserEntity): (dto: CreateUserDto)
    ensures dto == CreateUserDto(e.name, e.email, e.password, e.role)
  {
    CreateUserDto(
      name := e.name,
      email := e.email,
      password := e.password,
      role := e.role)
  }

  /** The outward view of the row; it has no password field, matching the
      `@Exclude` on `UserResponseDto.password`. */
  function ToResponseDto(e: UserEntity, iso: Date -> string): (r: UserResponseDto)
    ensures r.id == e.id && r.email == e.email && r.name == e.name
    ensures r.loginAttempts == e.loginAttempts && r.role == e.role
    ensures r.createdAt == iso(e.createdAt) && r.updatedAt == iso(e.updatedAt)
  {
    UserResponseDto(
      id := e.id,
      email := e.email,
      name := e.name,
      loginAttempts := e.loginAttempts,
      role := e.role,
      createdAt := iso(e.createdAt),
      updatedAt := iso(e.updatedAt))
  }

  /** The response of a row is independent of its password and federated id. */
  lemma ResponseHidesSecrets(e: UserEntity, password: Option<string>, googleId: Option<string>, iso: Date -> string)
    ensures ToResponseDto(e.(password := password, googleId := googleId), iso) == ToResponseDto(e, iso)
  {
  }

  /** Going through the domain layer changes nothing outward: the row's
      response and input shapes are those of its domain user, so `ToDomain`
      and `ToResponseDto` agree on every field they share. */
  lemma ViewsCommuteThroughDomain(e: UserEntity, iso: Date -> string)
    ensures ToResponseDto(e, iso) == UserDomainMapper.ToResponseDto(ToDomain(e), iso)
    ensures ToInputDto(e) == UserDomainMapper.ToInputDto(ToDomain(e))
  {
  }

  /** This mapper and the Prisma mapper read a row identically. */
  lemma AgreesWithPrismaMapper(e: UserEntity)
    ensures ToDomain(e) == PrismaUserDomainMapper.ToDomain(e)
    ensures ToInputDto(e) == PrismaUserDomainMapper.ToDto(e)
  {
  }

  /** Storing a domain user with `UserDomainMapper.ToPersistence` and reading
      it back gives the same user except for the federated id. */
  lemma ReadBackAfterPersist(d: UserDomain)
    ensures ToDomain(UserDomainMapper.ToPersistence(d)) == d.(googleId := None)
  {
  }
}

=== FILE: user_store.dfy ===
/** The user table, held in memory: rows keyed by id, plus the two unique
    indexes the services look users up by (email and federated id). The
    repository's lookups return `null` for a missing row; here they return
    an `Option`. */
module UserStore {
  import opened Common
  import opened Users

  /** Column defaults the table fills in on creation. */
  datatype Defaults = Defaults(role: Role, loginAttempts: int)

  /** The fields a caller supplies when creating a user. */
  datatype NewUser = NewUser(
    name: string,
    email: string,
    password: Option<string>,
    googleId: Option<string>)

  datatype Store = Store(
    rows: map<string, UserEntity>,
    byEmail: map<string, string>,
    byGoogleId: map<string, string>,
    defaults: Defaults)

  /** The indexes describe the rows exactly: every row is filed under its
      own id, its email, and its federated id when it has one, and every
      index entry points at a row carrying that key. In particular no two
      rows share an email or a federated id. */
  ghost predicate Valid(s: Store) {
    && (forall id :: id in s.rows ==> s.rows[id].id == id)
    && (forall id :: id in s.rows ==> s.rows[id].email in s.byEmail && s.byEmail[s.rows[id].email] == id)
    && (forall e :: e in s.byEmail ==> s.byEmail[e] in s.rows && s.rows[s.byEmail[e]].email == e)
    && (forall id :: id in s.rows && s.rows[id].googleId.Some? ==>
          s.rows[id].googleId.value in s.byGoogleId && s.byGoogleId[s.rows[id].googleId.value] == id)
    && (forall g :: g in s.byGoogleId ==>
          s.byGoogleId[g] in s.rows && s.rows[s.byGoogleId[g]].googleId == Some(g))
  }

  /** `findOne(id)`. */
  function FindOne(s: Store, id: string): (r: Option<UserEntity>)
    ensures r.Some? <==> id in s.rows
    ensures r.Some? ==> r.value == s.rows[id]
  {
    if id in s.rows then Some(s.rows[id]) else None
  }

  /** `findOneBy({email})`: the one row with that email, if any. */
  function FindByEmail(s: Store, email: string): (r: Option<UserEntity>)
    ensures Valid(s) ==> (r.Some? <==> exists id :: id in s.rows && s.rows[id].email == email)
    ensures Valid(s) && r.Some? ==> r.value.email == email && r.value.id in s.rows && s.rows[r.value.id] == r.value
  {
    if email in s.byEmail && s.byEmail[email] in s.rows then Some(s.rows[s.byEmail[email]]) else None
  }

  /** `findOneBy({googleId})`: the one row with that federated id, if any. */
  function FindByGoogleId(s: Store, googleId: string): (r: Option<UserEntity>)
    ensures Valid(s) ==> (r.Some? <==> exists id :: id in s.rows && s.rows[id].googleId == Some(googleId))
    ensures Valid(s) && r.Some? ==>
      r.value.googleId == Some(googleId) && r.value.id in s.rows && s.rows[r.value.id] == r.value
  {
    if googleId in s.byGoogleId && s.byGoogleId[googleId] in s.rows then Some(s.rows[s.byGoogleId[googleId]]) else None
  }

  /** Whether creating `data` under `id` would break a unique key. */
  predicate Conflicts(s: Store, data: NewUser, id: string) {
    || id in s.rows
    || data.email in s.byEmail
    || (data.googleId.Some? && data.googleId.value in s.byGoogleId)
  }

  /** `create(data)`: a new row under the fresh `id`, stamped `now`, with the
      table's default role and login-attempt count; refused when the id, the
      email or the federated id is taken. */
  function Create(s: Store, data: NewUser, id: string, now: Date): (r: Result<(UserEntity, Store)>)
    ensures r.Failure? <==> Conflicts(s, data, id)
    ensures r.Failure? ==> r.error.UniqueViolation?
    ensures r.Success? ==> r.value.0 == UserEntity(id, data.email, data.name, data.password,
                                                 s.defaults.role, s.defaults.loginAttempts,
                                                 data.googleId, now, now)
    ensures r.Success? ==> r.value.1.rows == s.rows[id := r.value.0]
    ensures r.Success? ==> r.value.1.defaults == s.defaults
    ensures r.Success? && Valid(s) ==> Valid(r.value.1)
  {
    if id in s.rows then Failure(UniqueViolation("id"))
    else if data.email in s.byEmail then Failure(UniqueViolation("email"))
    else if data.googleId.Some? && data.googleId.value in s.byGoogleId then Failure(UniqueViolation("googleId"))
    else
      var row := UserEntity(id, data.email, data.name, data.password,
                            s.defaults.role, s.defaults.loginAttempts,
                            data.googleId, now, now);
      var byGoogleId := if data.googleId.Some? then s.byGoogleId[data.googleId.value := id] else s.byGoogleId;
      Success((row, Store(s.rows[id := row], s.byEmail[data.email := id], byGoogleId, s.defaults)))
  }

  /** `update(id, {password})`: replaces the password of an existing row and
      nothing else; refused when there is no such row. */
  function UpdatePassword(s: Store, id: string, password: string): (r: Result<Store>)
    ensures r.Failure? <==> id !in s.rows
    ensures r.Success? ==> r.value.rows == s.rows[id := s.rows[id].(password := Some(password))]
    ensures r.Success? ==> r.value == s.(rows := r.value.rows)
    ensures r.Success? && Valid(s) ==> Valid(r.value)
  {
    if id !in s.rows then Failure(RecordNotFound)
    else Success(s.(rows := s.rows[id := s.rows[id].(password := Some(password))]))
  }
}

=== FILE: users.dfy ===
/** The user records that flow between the database, the domain layer and
    the HTTP layer. Each shape is the set of fields the corresponding
    TypeScript type or object literal carries. */
module Users {
  import opened Common

  /** `Role` and the database's `RoleEnumType` have the same two members;
      the mappers' conversions between them are the identity, so one
      datatype stands for both. */
  datatype Role = Student | Teacher

  /** A point in time, as milliseconds since the epoch. The model only
      copies and compares dates and hands them to the ISO rendering that
      the response mappers take as a parameter. */
  datatype Date = Date(epochMillis: int)

  /** A row of the user table, as the repository returns it. `password` is
      absent for accounts created by federated sign-in; `googleId` is
      present only for those. */
  datatype UserEntity = UserEntity(
    id: string,
    email: string,
    name: string,
    password: Option<string>,
    role: Role,
    loginAttempts: int,
    googleId: Option<string>,
    createdAt: Date,
    updatedAt: Date)

  /** The domain-layer user. */
  datatype UserDomain = UserDomain(
    id: string,
    name: string,
    email: string,
    password: Option<string>,
    role: Role,
    loginAttempts: int,
    googleId: Option<string>,
    createdAt: Date,
    updatedAt: Date)

  /** The input shape of user creation: `{name, email, password, role}`. */
  datatype CreateUserDto = CreateUserDto(
    name: string,
    email: string,
    password: Option<string>,
    role: Role)

  /** The outward shape of a user: no password and no federated id, with the
      timestamps rendered as strings. */
  datatype UserResponseDto = UserResponseDto(
    id: string,
    email: string,
    name: string,
    loginAttempts: int,
    role: Role,
    createdAt: string,
    updatedAt: string)
}
